=== FILE: README.md ===
# One-Click Analysis: the `/analyze-task` pipeline in Dafny

This project models the request handler of the One-Click Analysis backend
(`backend/index.js`). The handler takes a task (title, structured
description, optional comments) and checks it. It then builds a prompt and
calls a chat-completion service once. It cleans the model's JSON reply and
answers with a uniform envelope.

Everything except the network call and `JSON.parse` is modelled as pure
functions over immutable values:

- `optional.dfy` (`Optional`): `Option`, where `None` stands for a
  JavaScript `undefined`.
- `json.dfy` (`Json`): parsed JSON values and the JavaScript semantics the
  handler relies on:
  - truthiness and `typeof x === "object"`
  - property reads (the last duplicate key wins, as with `JSON.parse`)
  - `String(v)` and `Array.prototype.join`
  - a `Split` that inverts a one-character join
- `validation.dfy` (`Validation`): the three input checks, in source order.
- `prompt.dfy` (`Prompt`): the description block, the comments section and
  the whole prompt. A `TypeError` thrown while rendering is the `None`
  result. This happens when `join` is called on a non-array, `map` on a
  falsy non-array, or `comment` is read from `null`. It also happens when
  `String` is applied to an object that has its own `toString` property,
  directly or as an array element.
- `fences.dfy` (`Fences`): `text.replace(/```json|```/gi, "").trim()`.
- `dedup.dfy` (`Deduplication`): `[...new Set(array)]` as a recursive
  function, as a one-pass method, and as a reference definition that keeps
  first occurrences.
- `normalizer.dfy` (`Normalizer`): `cleanLLMJson` and the handler's "has
  keys" test.
- `envelope.dfy` (`Envelope`): `sendError`, the success reply, the status
  table, and a client-side `Classify` that reads every reply back.
- `handler.dfy` (`Handler`): the handler as a whole. The completion call is
  an abstract `Gateway` value: either the returned choices or a thrown
  error with its `code` and `response.status`. `JSON.parse` is the `parse`
  parameter. `Handle` returns the reply and the prompt sent, if one was
  sent.

The model follows the code as written. In particular:

- Fences are removed everywhere in the text, not only at its ends.
- An array passes as a description.
- A falsy non-array `comments` value passes validation. For `""`, `0` and
  `false`, `comments?.map` then throws, so the reply is the generic 500
  and not a 400.
- A description list field that is neither an array nor `null` makes
  `?.join` throw, which also gives the generic 500.
- `JSON.parse` can give an object its own `toString` property, which is
  never a function. Converting such an object to text (`String(v)`, a
  template literal, `join`) then throws a `TypeError`: the inherited
  `valueOf` returns the object itself, so no primitive value is produced.
  A context, a list element or a comment line of that kind therefore gives
  the generic 500 before the completion service is called. Any other
  object renders as "[object Object]".
- `cleanLLMJson` accepts any parsed value. A non-empty array or string
  passes the handler's key check. A parsed `null` makes `Object.keys`
  throw, so the result is the 502 parse message.
- Deduplication uses `Set` semantics. Primitives are compared by value.
  Each array or object that `JSON.parse` creates is a distinct reference,
  so `Set` never drops one. "Free of duplicates" (`DuplicateFree`)
  therefore covers primitive values.

## Model

| member | source | states |
|---|---|---|
| `Validation.Validate` | backend/index.js:27-37 | The first failing check wins. A title that is not a non-empty string gives "Task title is required." whatever the other fields hold. Otherwise, a description that is not an array or object gives the description message. Otherwise, truthy non-array comments give "Comments must be an array.". Falsy comments pass. On success the fields are passed on unchanged. |
| `Handler.ValidationFailsFirst` | backend/index.js:27-37 | Each validation failure gives a 400 reply with that check's message and sends nothing to the model. A reply is 400 exactly when validation fails. |
| `Handler.CallOnlyAfterValidation` | backend/index.js:27-69 | A prompt is sent exactly when all three checks pass and the prompt renders, and it is that prompt. A request that is never sent gets the same reply whatever the gateway and parser do. |
| `Handler.FalsyCommentsFailAfterValidation` | backend/index.js:35-65 | `""`, `0` or `false` as comments passes validation, but rendering the comments throws. The reply is the generic 500, with no model call. |
| `Json.JoinIsEmpty` | backend/index.js:42-45 | A join with a non-empty separator is empty exactly when there are no parts, or one part that is empty. |
| `Json.Str` | backend/index.js:41-45 | `String(v)` fails exactly when `v` is an object with its own `toString` property, or an array with such a value somewhere among its elements. Every other value converts. |
| `Json.JoinValues` | backend/index.js:42-45 | A join fails exactly when one of the elements cannot be converted to text. |
| `Prompt.ContextText` | backend/index.js:41 | The context line fails exactly when the context is truthy and cannot be converted to text. |
| `Prompt.ContextTextNotApplicable` | backend/index.js:41 | The context reads "N/A" exactly when it is falsy or converts to the text "N/A". It is empty exactly when it is truthy and converts to empty text, as `[]` does. |
| `Prompt.ListText` | backend/index.js:42-45 | A list field fails exactly when it is neither absent, `null` nor an array, or is an array with an element that cannot be converted to text. A rendered field is never empty. |
| `Prompt.ListTextNotApplicable` | backend/index.js:42-45 | A list field renders as "N/A" exactly in these cases: it is absent or `null`, its array is empty, it holds one element that renders as empty text, or its join is literally "N/A". Rendering fails exactly for a value that has no `join` and for an array with an element that cannot be converted to text. A rendered field is never empty. |
| `Prompt.DescriptionText` | backend/index.js:40-46 | The description block fails exactly when the context or one of the four list fields fails to render. |
| `Prompt.PromptReadsOnlyKnownKeys` | backend/index.js:40-46 | The prompt depends on the description only through `context`, `information`, `taskPoints`, `deliverables` and `references`. |
| `Prompt.CommentsText` | backend/index.js:65 | The comments section fails exactly when `map` is missing, an entry is `null`, or an entry's `comment` (or the entry itself) cannot be converted to text. A rendered section is never empty. |
| `Prompt.CommentsTextNoComments` | backend/index.js:65 | The comments section is "No comments" exactly in these cases: comments are absent or `null`, the array is empty, it holds one entry whose line is empty, or the lines join to that literal text. Rendering fails exactly in the cases above. |
| `Json.SplitJoin` | backend/index.js:65 | Joining parts that contain no separator with a one-character separator, and then splitting, gives back the parts. |
| `Prompt.CommentsSectionLines` | backend/index.js:65 | When every comment line renders and none has a line break, the comments section splits into one line per entry, in order: each entry's `comment` if truthy, else the entry. The one exception is when the section is "No comments". |
| `Prompt.BuildPrompt` | backend/index.js:40-66 | The prompt fails to render exactly when the context cannot be converted to text, one of the four list fields cannot be joined, or the comments cannot be mapped and joined. A rendered prompt starts with the fixed instructions followed by the title. |
| `Fences.StripFences` | backend/index.js:124 | Fence removal never lengthens the text. |
| `Fences.StripFencesAddsNothing` | backend/index.js:124 | Fence removal adds no character: each occurs in the result no more often than in the input. |
| `Fences.NoTickPrefix` | backend/index.js:124 | Text before the first backtick is kept in place and in order. Removal only starts at a backtick. |
| `Fences.FencedBody` | backend/index.js:124 | A reply wrapped as "```json" (the tag in any case), a backtick-free body and "```" loses exactly the two fences. Cleaning it gives the body with its outer white space trimmed. |
| `Fences.PlainFencedBody` | backend/index.js:124 | A reply wrapped in plain "```" fences, with a backtick-free body that does not start with "json" in any case, loses exactly the two fences. Cleaning it gives the body with its outer white space trimmed. |
| `Fences.Trim` | backend/index.js:124 | The result is a slice of the input, with only white space cut from each end, and it has no white space at either end. |
| `Fences.StripFencesLeavesNoFence` | backend/index.js:124 | After the global removal of "```json" (letters in any case) and "```", no "```" remains anywhere in the text. |
| `Fences.StripFencesIdentity` | backend/index.js:124 | Text without "```" passes through fence removal unchanged. |
| `Fences.CleanResult` | backend/index.js:124 | The cleaned text contains no "```" and has no white space at either end. |
| `Fences.CleanIdentity` | backend/index.js:124 | Text with no fences and no outer white space is returned unchanged. |
| `Fences.CleanIdempotent` | backend/index.js:124 | Cleaning twice gives the same text as cleaning once. |
| `Deduplication.Dedup` | backend/index.js:130 | The result holds the same elements as the input, no primitive value twice, and is no longer than the input. |
| `Deduplication.DedupKeepsFirstOccurrences` | backend/index.js:130 | The result is exactly the input filtered to first occurrences, in original order. |
| `Deduplication.DedupOfDuplicateFree` | backend/index.js:130 | An array already free of duplicates is returned unchanged. |
| `Deduplication.DedupIdempotent` | backend/index.js:130 | Deduplicating twice gives the same array as deduplicating once. |
| `Deduplication.DedupArray` | backend/index.js:130 | The one-pass loop, which fills a set and an output array, computes the same array as `Dedup`. |
| `Deduplication.DedupValueMeaning` | backend/index.js:129-131 | A non-array value is untouched. An array becomes its first occurrences: duplicate-free, with the same elements. The step is idempotent. |
| `Normalizer.DedupFields` | backend/index.js:128-132 | The loop over `Object.keys` throws exactly on `null`. An object keeps its length and its keys in order, an array keeps its length, and any other value is left as it is. |
| `Normalizer.DedupFieldsOnObject` | backend/index.js:128-132 | On a parsed object every key stays in place and in order, and every non-array value is unchanged. Every array value becomes its duplicate-free first occurrences, with the same element set. |
| `Normalizer.DedupFieldsIdempotent` | backend/index.js:128-132 | Applying the field deduplication to its own result changes nothing. |
| `Normalizer.NormalizedArraysDuplicateFree` | backend/index.js:128-134 | When the normalized result is an object, every array property in it is free of duplicates. |
| `Normalizer.CleanLlmJson` | backend/index.js:121-139 | The result is `null` exactly when the content is not text, parsing fails, or the parse gives `null`. A result is never `null` itself. |
| `Normalizer.CleanLlmJsonOutcome` | backend/index.js:121-139 | The result is `null` exactly when the content is not text, parsing fails, or the parse gives `null`. Otherwise it is the parsed value with its array fields deduplicated. The parser only ever sees fence-free, trimmed text. |
| `Normalizer.UsableIff` | backend/index.js:94-96 | The handler accepts an analysis exactly when it is a non-empty object, array or string. The five expected keys are not required. |
| `Envelope.SendError` | backend/index.js:15-20 | A failure reply has the given status, `success: false` and the given message. |
| `Envelope.SendSuccess` | backend/index.js:99-104 | A success reply has status 200 and `success: true`. It echoes the title, description and analysis and carries no message. |
| `Envelope.Respond` | backend/index.js:86-116 | The status table: validation 400; empty reply 502; unparsable 502; time-out 504; 401 gives 500 "AI authentication failed."; anything else 500 generic; success 200. `success` is true exactly for status 200. |
| `Envelope.ClassifyRespond` | backend/index.js:86-116 | Every outcome can be recovered from its reply's status, `success` flag and message or payload. |
| `Envelope.RespondInjective` | backend/index.js:86-116 | Two different outcomes never produce the same reply. |
| `Envelope.ErrorEnvelope` | backend/index.js:15-20 | Every failure reply has status 400, 500, 502 or 504, and a body of exactly `success: false` and a message. |
| `Handler.Caught` | backend/index.js:105-117 | The `ECONNABORTED` code gives a time-out and takes precedence over a 401 status. A 401 gives the authentication failure. Every other error is the generic failure. |
| `Handler.AfterCall` | backend/index.js:86-117 | Nothing after the call gives a validation failure. A success echoes the validated title and description, and carries the normalized analysis of the first choice's content, which passed the key check. A thrown call goes straight to the catch block. |
| `Handler.Handle` | backend/index.js:22-117 | A prompt is sent only for valid input, and it is the rendering of the validated fields. A reply is 400 exactly when validation fails. A sent prompt's reply is the one the call's result decides. A valid request whose prompt does not render gets the generic 500. Every reply has status 200, 400, 500, 502 or 504. |
| `Handler.OwnToStringFailsBeforeCall` | backend/index.js:27-117 | A task whose context is an object with its own `toString` passes validation, but the prompt throws: nothing is sent and the reply is the generic 500. |
| `Handler.GatewayOutcomes` | backend/index.js:86-117 | After the call: no choices gives 502 "AI returned an empty response."; a time-out 504; a 401 500 "AI authentication failed."; other errors and a missing message 500 generic; an unusable analysis 502 with the parse message; a usable one 200, echoing the title and description with the normalized analysis. |
| `Handler.SuccessIsDeduplicated` | backend/index.js:86-104 | In a 200 reply the analysis is never an empty object, and every array property of an analysed object is free of duplicates. |
| `Handler.HappyPathExample` | backend/index.js:22-104 | A valid task with a context and one comment, and a model reply whose analysis lists "a" twice as completed work. The result is a 200 with "a" listed once and every other field passed through. |

## Left out

- Express setup, CORS, `dotenv` and `app.listen` on port 5000: server plumbing, not request logic.
- The HTTP POST to the completion service is left out. It is network I/O, so its result is an input value (`Gateway`). Also left out: its configuration (model name, temperature 0.4, the 4096-token budget, the bearer-token header, the 20 s time-out).
- `JSON.parse` is a parameter. Its parsing is not modelled.
- `console.error` logging has no effect on replies.
- Numbers are integers. Floating-point values and exponent forms of `String(n)` are not modelled.
- Text is a sequence of Unicode scalar values, not UTF-16 code units. The only length the handler tests is whether a string is empty, and that is the same either way.
- The request body is taken as its three destructured properties. A body that is not an object is not modelled. Property reads see own data properties only, because no prototype defines the keys the handler reads.
- An object is a member list that may repeat a key. A JavaScript object keeps one entry per key, the last one `JSON.parse` saw. The two agree where the handler looks: property reads go through `Lookup`, where the last member wins; the emptiness test agrees; and `DedupFields` deduplicates every member. A reply body may carry duplicate members. JavaScript would send one entry per key, and each duplicate reads back through `Lookup` to the value JavaScript sends.
- `frontend/src/App.jsx` is not part of this model. It only displays the reply.
- Deduplication.Dedup: "no duplicates" is stated for primitive values only. A `Set` compares arrays and objects by reference, and each one `JSON.parse` creates is distinct, so the source never drops them either.

=== FILE: dedup.dfy ===
/**
 `[...new Set(array)]`: the array with repeated values dropped, keeping each
 value where it first occurs. A `Set` compares primitives by value and
 objects by reference; every array or object `JSON.parse` produces is a new
 reference, so such elements are never dropped.
 */
module Deduplication {
  import opened Json

  /** A value a `Set` compares by value rather than by reference. */
  predicate IsPrimitive(v: Json) {
    !v.JArray? && !v.JObject?
  }

  /** `set.has(v)` for a `Set` filled with the elements of `kept`. */
  predicate InSet(v: Json, kept: seq<Json>) {
    IsPrimitive(v) && v in kept
  }

  /** No primitive value occurs twice. */
  predicate DuplicateFree(xs: seq<Json>) {
    forall i, j :: 0 <= i < j < |xs| && IsPrimitive(xs[i]) ==> xs[i] != xs[j]
  }

  /**
   The array a `Set` built from `xs` spreads back into: elements in
   insertion order, each primitive value once.
   */
  function Dedup(xs: seq<Json>): (r: seq<Json>)
    ensures forall v :: v in r <==> v in xs
    ensures DuplicateFree(r)
    ensures |r| <= |xs|
    decreases |xs|
  {
    if |xs| == 0 then []
    else
      var kept := Dedup(xs[..|xs| - 1]);
      var x := xs[|xs| - 1];
      assert forall v :: v in xs <==> v in xs[..|xs| - 1] || v == x by {
        assert xs == xs[..|xs| - 1] + [x];
      }
      if InSet(x, kept) then kept else kept + [x]
  }

  /** `xs[i]` is the first occurrence of its value, or an element compared by reference. */
  predicate FirstOccurrence(xs: seq<Json>, i: int)
    requires 0 <= i < |xs|
  {
    !IsPrimitive(xs[i]) || xs[i] !in xs[..i]
  }

  /** The elements of `xs` at their first occurrences, in their original order. */
  function FirstOccurrences(xs: seq<Json>): seq<Json>
    decreases |xs|
  {
    if |xs| == 0 then []
    else
      FirstOccurrences(xs[..|xs| - 1])
      + (if FirstOccurrence(xs, |xs| - 1) then [xs[|xs| - 1]] else [])
  }

  /**
   Deduplication keeps exactly the first occurrences, in order: the array
   is filtered, never reordered.
   */
  lemma {:induction false} DedupKeepsFirstOccurrences(xs: seq<Json>)
    ensures Dedup(xs) == FirstOccurrences(xs)
    decreases |xs|
  {
    if |xs| > 0 {
      var prefix := xs[..|xs| - 1];
      DedupKeepsFirstOccurrences(prefix);
      var x := xs[|xs| - 1];
      assert InSet(x, Dedup(prefix)) <==> !FirstOccurrence(xs, |xs| - 1);
    }
  }

  /** An array that is already free of duplicates is left as it is. */
  lemma {:induction false} DedupOfDuplicateFree(xs: seq<Json>)
    requires DuplicateFree(xs)
    ensures Dedup(xs) == xs
    decreases |xs|
  {
    if |xs| > 0 {
      var prefix := xs[..|xs| - 1];
      assert DuplicateFree(prefix) by {
        forall i, j | 0 <= i < j < |prefix| && IsPrimitive(prefix[i]) ensures prefix[i] != prefix[j] {
          assert prefix[i] == xs[i] && prefix[j] == xs[j];
        }
      }
      DedupOfDuplicateFree(prefix);
      var x := xs[|xs| - 1];
      assert !InSet(x, prefix) by {
        forall i | 0 <= i < |prefix| && IsPrimitive(prefix[i]) ensures prefix[i] != x {
          assert prefix[i] == xs[i];
        }
      }
      assert prefix + [x] == xs;
    }
  }

  /** Deduplicating twice is deduplicating once. */
  lemma DedupIdempotent(xs: seq<Json>)
    ensures Dedup(Dedup(xs)) == Dedup(xs)
  {
    DedupOfDuplicateFree(Dedup(xs));
  }

  /** `[...new Set(xs)]` as the engine runs it: one pass that fills a set and an output array. */
  method DedupArray(xs: seq<Json>) returns (r: seq<Json>)
    ensures r == Dedup(xs)
  {
    r := [];
    var seen: set<Json> := {};
    for i := 0 to |xs|
      invariant r == Dedup(xs[..i])
      invariant forall v :: v in seen <==> IsPrimitive(v) && v in r
    {
      var x := xs[i];
      assert xs[..i + 1][..i] == xs[..i];
      if !(IsPrimitive(x) && x in seen) {
        r := r + [x];
        if IsPrimitive(x) {
          seen := seen + {x};
        }
      }
    }
    assert xs[..|xs|] == xs;
  }

  /** One property after `parsed[key] = [...new Set(parsed[key])]` for array values. */
  function DedupValue(v: Json): Json {
    if v.JArray? then JArray(Dedup(v.items)) else v
  }

  /** A deduplicated property keeps its kind and its elements, loses its repeats, and is left alone when not an array. */
  lemma DedupValueMeaning(v: Json)
    ensures !v.JArray? ==> DedupValue(v) == v
    ensures v.JArray? ==> DedupValue(v).JArray?
                          && DedupValue(v).items == FirstOccurrences(v.items)
                          && DuplicateFree(DedupValue(v).items)
                          && (forall x :: x in DedupValue(v).items <==> x in v.items)
    ensures DedupValue(DedupValue(v)) == DedupValue(v)
  {
    if v.JArray? {
      DedupKeepsFirstOccurrences(v.items);
      DedupIdempotent(v.items);
    }
  }
}

=== FILE: envelope.dfy ===
/**
 The handler's possible outcomes and the HTTP replies they become: every
 failure goes through `sendError`, which sends `{ success: false, message }`
 with its status; a success sends `{ success: true, title, description,
 analysis }` with status 200.
 */
module Envelope {
  import opened Optional
  import opened Json

  const EmptyResponse: string := "AI returned an empty response."
  const Unparsable: string := "AI response could not be parsed. Please try again."
  const TimedOut: string := "AI service timed out. Please try again."
  const AuthFailed: string := "AI authentication failed."
  const GenericFailure: string := "Something went wrong while generating the report."

  /** How one request ended. */
  datatype Outcome =
    | InvalidInput(message: string)
    | UpstreamEmpty
    | UpstreamUnparsable
    | UpstreamTimeout
    | UpstreamAuth
    | InternalUnexpected
    | Analysed(title: string, description: Json, analysis: Json)

  /** An HTTP reply: its status and its JSON body. */
  datatype Reply = Reply(status: int, body: Json)

  /** `sendError(res, status, message)`. */
  function SendError(status: int, message: string): (r: Reply)
    ensures r.status == status && r.body.JObject?
    ensures Lookup(r.body.members, "success") == Some(JBool(false))
    ensures Lookup(r.body.members, "message") == Some(JString(message))
  {
    Reply(status, JObject([Member("success", JBool(false)), Member("message", JString(message))]))
  }

  /** `res.json({ success: true, title, description, analysis })`, sent with the default status. */
  function SendSuccess(title: string, description: Json, analysis: Json): (r: Reply)
    ensures r.status == 200 && r.body.JObject?
    ensures Lookup(r.body.members, "success") == Some(JBool(true))
    ensures Lookup(r.body.members, "message") == None
    ensures Lookup(r.body.members, "title") == Some(JString(title))
    ensures Lookup(r.body.members, "description") == Some(description)
    ensures Lookup(r.body.members, "analysis") == Some(analysis)
  {
    var ms1 := [Member("success", JBool(true))];
    var ms2 := ms1 + [Member("title", JString(title))];
    var ms3 := ms2 + [Member("description", description)];
    var ms := ms3 + [Member("analysis", analysis)];
    LookupAppend(ms3, Member("analysis", analysis));
    LookupAppend(ms2, Member("description", description));
    LookupAppend(ms1, Member("title", JString(title)));
    Reply(200, JObject(ms))
  }

  /** The `message` a reply's body carries, when it carries a text one. */
  function MessageOf(r: Reply): Option<string> {
    if !r.body.JObject? then None
    else
      var m := Lookup(r.body.members, "message");
      if m.Some? && m.value.JString? then Some(m.value.s) else None
  }

  /**
   The status table. Every reply's body is an object whose `success` flag
   is true exactly for status 200; each failure kind has its own status and
   fixed message, and a success echoes the title, description and analysis.
   */
  function Respond(o: Outcome): (r: Reply)
    ensures r.body.JObject?
    ensures Lookup(r.body.members, "success") == Some(JBool(o.Analysed?))
    ensures o.Analysed? <==> r.status == 200
    ensures !o.Analysed? <==> MessageOf(r).Some?
    ensures o.InvalidInput? ==> r.status == 400 && MessageOf(r) == Some(o.message)
    ensures o.UpstreamEmpty? ==> r.status == 502 && MessageOf(r) == Some(EmptyResponse)
    ensures o.UpstreamUnparsable? ==> r.status == 502 && MessageOf(r) == Some(Unparsable)
    ensures o.UpstreamTimeout? ==> r.status == 504 && MessageOf(r) == Some(TimedOut)
    ensures o.UpstreamAuth? ==> r.status == 500 && MessageOf(r) == Some(AuthFailed)
    ensures o.InternalUnexpected? ==> r.status == 500 && MessageOf(r) == Some(GenericFailure)
    ensures o.Analysed? ==> Lookup(r.body.members, "analysis") == Some(o.analysis)
                            && Lookup(r.body.members, "title") == Some(JString(o.title))
                            && Lookup(r.body.members, "description") == Some(o.description)
  {
    match o
    case InvalidInput(m) => SendError(400, m)
    case UpstreamEmpty => SendError(502, EmptyResponse)
    case UpstreamUnparsable => SendError(502, Unparsable)
    case UpstreamTimeout => SendError(504, TimedOut)
    case UpstreamAuth => SendError(500, AuthFailed)
    case InternalUnexpected => SendError(500, GenericFailure)
    case Analysed(t, d, a) => SendSuccess(t, d, a)
  }

  /** How a client reads a reply back: from its status, its `success` flag and its message or payload. */
  function Classify(r: Reply): Option<Outcome> {
    if !r.body.JObject? then None
    else
      var ms := r.body.members;
      var success := Lookup(ms, "success");
      if success == Some(JBool(true)) && r.status == 200 then
        var title := Lookup(ms, "title");
        var description := Lookup(ms, "description");
        var analysis := Lookup(ms, "analysis");
        if title.Some? && title.value.JString? && description.Some? && analysis.Some? then
          Some(Analysed(title.value.s, description.value, analysis.value))
        else None
      else if success == Some(JBool(false)) then
        var message := Lookup(ms, "message");
        if message.None? || !message.value.JString? then None
        else
          var m := message.value.s;
          if r.status == 400 then Some(InvalidInput(m))
          else if r.status == 502 && m == EmptyResponse then Some(UpstreamEmpty)
          else if r.status == 502 && m == Unparsable then Some(UpstreamUnparsable)
          else if r.status == 504 && m == TimedOut then Some(UpstreamTimeout)
          else if r.status == 500 && m == AuthFailed then Some(UpstreamAuth)
          else if r.status == 500 && m == GenericFailure then Some(InternalUnexpected)
          else None
      else None
  }

  /** Every outcome can be read back from its reply: no two outcomes share a status, flag and message. */
  lemma ClassifyRespond(o: Outcome)
    ensures Classify(Respond(o)) == Some(o)
  {
  }

  /** Distinct outcomes give distinct replies. */
  lemma RespondInjective(o1: Outcome, o2: Outcome)
    requires Respond(o1) == Respond(o2)
    ensures o1 == o2
  {
    ClassifyRespond(o1);
    ClassifyRespond(o2);
  }

  /**
   Every failure reply carries exactly `success: false` and a message, with
   a 4xx or 5xx status; only a success carries status 200.
   */
  lemma ErrorEnvelope(o: Outcome)
    requires !o.Analysed?
    ensures Respond(o).status in {400, 500, 502, 504}
    ensures exists m :: Respond(o).body == JObject([Member("success", JBool(false)), Member("message", JString(m))])
  {
  }
}

=== FILE: fences.dfy ===
/**
 The first step of `cleanLLMJson`: `text.replace(/```json|```/gi, "").trim()`.
 The regular expression is applied globally, scanning left to right; at each
 position the longer alternative "```json" (letters in any case) is tried
 before "```". `trim` then drops JavaScript white space at both ends.
 */
module Fences {

  /** A three-backtick fence starts at index `i` of `s`. */
  predicate FenceAt(s: string, i: int) {
    0 <= i && i + 3 <= |s| && s[i] == '`' && s[i + 1] == '`' && s[i + 2] == '`'
  }

  /** `s` contains "```" somewhere (case plays no part: backticks have none). */
  predicate HasFence(s: string) {
    exists i :: 0 <= i < |s| && FenceAt(s, i)
  }

  /** `a` matches the lower-case ASCII letter `lower` under the regular expression's `i` flag. */
  predicate SameLetterIgnoringCase(a: char, lower: char)
    requires 'a' <= lower <= 'z'
  {
    a == lower || a as int == lower as int - 32
  }

  /** `s` starts with "json", the letters in any case. */
  predicate StartsWithJsonTag(s: string) {
    |s| >= 4
    && SameLetterIgnoringCase(s[0], 'j') && SameLetterIgnoringCase(s[1], 's')
    && SameLetterIgnoringCase(s[2], 'o') && SameLetterIgnoringCase(s[3], 'n')
  }

  /** `s` starts with "```json", the letters in any case. */
  predicate StartsWithJsonFence(s: string) {
    FenceAt(s, 0) && |s| >= 7
    && SameLetterIgnoringCase(s[3], 'j') && SameLetterIgnoringCase(s[4], 's')
    && SameLetterIgnoringCase(s[5], 'o') && SameLetterIgnoringCase(s[6], 'n')
  }

  /** The global replacement of every "```json" and "```" match by nothing. */
  function StripFences(s: string): (r: string)
    ensures |r| <= |s|
    decreases |s|
  {
    if |s| == 0 then ""
    else if StartsWithJsonFence(s) then StripFences(s[7..])
    else if FenceAt(s, 0) then StripFences(s[3..])
    else [s[0]] + StripFences(s[1..])
  }

  /** The characters `String.prototype.trim` removes: white space and line terminators. */
  predicate IsWhitespace(c: char) {
    || c == '\t' || c == '\n' || c == '\U{B}' || c == '\U{C}' || c == '\r' || c == ' '
    || c == '\U{A0}' || c == '\U{1680}' || ('\U{2000}' <= c <= '\U{200A}')
    || c == '\U{2028}' || c == '\U{2029}' || c == '\U{202F}' || c == '\U{205F}'
    || c == '\U{3000}' || c == '\U{FEFF}'
  }

  /** Neither the first nor the last character of `s` is white space. */
  predicate Trimmed(s: string) {
    s == "" || (!IsWhitespace(s[0]) && !IsWhitespace(s[|s| - 1]))
  }

  /** The number of white-space characters `s` starts with. */
  function LeadingSpace(s: string): (n: nat)
    ensures n <= |s|
    ensures forall k :: 0 <= k < n ==> IsWhitespace(s[k])
    ensures n < |s| ==> !IsWhitespace(s[n])
    decreases |s|
  {
    if |s| > 0 && IsWhitespace(s[0]) then 1 + LeadingSpace(s[1..]) else 0
  }

  /** The number of white-space characters `s` ends with. */
  function TrailingSpace(s: string): (n: nat)
    ensures n <= |s|
    ensures forall k :: |s| - n <= k < |s| ==> IsWhitespace(s[k])
    ensures n < |s| ==> !IsWhitespace(s[|s| - 1 - n])
    decreases |s|
  {
    if |s| > 0 && IsWhitespace(s[|s| - 1]) then 1 + TrailingSpace(s[..|s| - 1]) else 0
  }

  /**
   `String.prototype.trim`: the result is the slice of `s` left once the
   white space at both ends is gone, and no white space remains at its ends.
   */
  function Trim(s: string): (r: string)
    ensures Trimmed(r)
    ensures exists i, j :: 0 <= i <= j <= |s| && r == s[i..j]
                           && (forall k :: 0 <= k < i ==> IsWhitespace(s[k]))
                           && (forall k :: j <= k < |s| ==> IsWhitespace(s[k]))
  {
    var a := LeadingSpace(s);
    var t := s[a..];
    var b := TrailingSpace(t);
    var r := t[..|t| - b];
    assert r == s[a..|s| - b];
    assert r != "" ==> r[0] == s[a] && r[|r| - 1] == t[|t| - 1 - b];
    r
  }

  /** Fence removal followed by the trim: the text handed to `JSON.parse`. */
  function Clean(text: string): string {
    Trim(StripFences(text))
  }

  /** A slice of fence-free text is fence-free. */
  lemma SliceKeepsNoFence(s: string, i: int, j: int)
    requires 0 <= i <= j <= |s|
    requires !HasFence(s)
    ensures !HasFence(s[i..j])
  {
    var t := s[i..j];
    forall k | 0 <= k < |t| ensures !FenceAt(t, k) {
      if k + 3 <= |t| {
        assert t[k] == s[i + k] && t[k + 1] == s[i + k + 1] && t[k + 2] == s[i + k + 2];
        assert !FenceAt(s, i + k);
      }
    }
  }

  /**
   Fence removal leaves no "```" behind: every match is removed and the
   pieces that close up never form a new one. The second conclusion is the
   induction's strengthening: a result that starts with something other than
   a backtick starts with the text's own first character.
   */
  lemma {:induction false} StripFencesLeavesNoFence(s: string)
    ensures !HasFence(StripFences(s))
    ensures |s| > 0 && s[0] != '`' ==> |StripFences(s)| > 0 && StripFences(s)[0] == s[0]
    decreases |s|
  {
    if |s| == 0 {
    } else if StartsWithJsonFence(s) {
      StripFencesLeavesNoFence(s[7..]);
    } else if FenceAt(s, 0) {
      StripFencesLeavesNoFence(s[3..]);
    } else {
      var t := s[1..];
      var rt := StripFences(t);
      StripFencesLeavesNoFence(t);
      var r := [s[0]] + rt;
      assert StripFences(s) == r;
      // The only place a new fence could appear is the front, where s[0] meets `rt`.
      assert !FenceAt(r, 0) by {
        if s[0] == '`' && |t| > 0 && t[0] == '`' {
          // `s` does not start with a fence, so the character after t[0] is no backtick.
          assert |t| < 2 || t[1] != '`';
          assert !FenceAt(t, 0);
          var u := t[1..];
          assert rt == [t[0]] + StripFences(u);
          if |u| > 0 {
            assert u[0] == t[1];
            StripFencesLeavesNoFence(u);
            assert r[2] == u[0];
          } else {
            assert |r| == 2;
          }
        } else if s[0] == '`' && |t| > 0 {
          assert r[1] == t[0];
        }
      }
      forall k | 0 < k < |r| ensures !FenceAt(r, k) {
        if k + 3 <= |r| {
          assert r[k] == rt[k - 1] && r[k + 1] == rt[k] && r[k + 2] == rt[k + 1];
          assert !FenceAt(rt, k - 1);
        }
      }
    }
  }

  /** Text without fences passes through fence removal unchanged. */
  lemma {:induction false} StripFencesIdentity(s: string)
    requires !HasFence(s)
    ensures StripFences(s) == s
    decreases |s|
  {
    if |s| > 0 {
      assert !FenceAt(s, 0);
      SliceKeepsNoFence(s, 1, |s|);
      assert s[1..|s|] == s[1..];
      StripFencesIdentity(s[1..]);
      assert [s[0]] + s[1..] == s;
    }
  }

  /** Fence removal adds no character: each occurs in the result no more often than in the text. */
  lemma {:induction false} StripFencesAddsNothing(s: string)
    ensures multiset(StripFences(s)) <= multiset(s)
    decreases |s|
  {
    if |s| == 0 {
    } else if StartsWithJsonFence(s) {
      StripFencesAddsNothing(s[7..]);
      assert s == s[..7] + s[7..];
    } else if FenceAt(s, 0) {
      StripFencesAddsNothing(s[3..]);
      assert s == s[..3] + s[3..];
    } else {
      StripFencesAddsNothing(s[1..]);
      assert s == [s[0]] + s[1..];
    }
  }

  /**
   Removal only starts at a backtick: text without one, followed by
   anything, comes through in place and in order.
   */
  lemma {:induction false} NoTickPrefix(p: string, rest: string)
    requires '`' !in p
    ensures StripFences(p + rest) == p + StripFences(rest)
    decreases |p|
  {
    if |p| == 0 {
      assert p + rest == rest;
    } else {
      var tail := p[1..];
      assert p == [p[0]] + tail;
      assert '`' !in tail;
      NoTickPrefix(tail, rest);
      assert p + rest == [p[0]] + (tail + rest);
      KeepFirst(p[0], tail + rest);
    }
  }

  /** A first character that is not a backtick is kept, and removal goes on after it. */
  lemma KeepFirst(c: char, t: string)
    requires c != '`'
    ensures StripFences([c] + t) == [c] + StripFences(t)
  {
    var s := [c] + t;
    assert s[0] == c && s[1..] == t;
  }

  /**
   A reply wrapped as "```json" (the tag in any case), a body without
   backticks and a closing "```" loses exactly the two fences: the body
   survives whole, and cleaning leaves the body without its outer white
   space.
   */
  lemma FencedBody(tag: string, body: string)
    requires |tag| == 4
    requires SameLetterIgnoringCase(tag[0], 'j') && SameLetterIgnoringCase(tag[1], 's')
    requires SameLetterIgnoringCase(tag[2], 'o') && SameLetterIgnoringCase(tag[3], 'n')
    requires '`' !in body
    ensures StripFences("```" + tag + body + "```") == body
    ensures Clean("```" + tag + body + "```") == Trim(body)
  {
    var s := "```" + tag + body + "```";
    assert StartsWithJsonFence(s);
    assert s[7..] == body + "```";
    NoTickPrefix(body, "```");
    assert StripFences("```") == StripFences("```"[3..]);
    assert "```"[3..] == "";
    assert body + "" == body;
  }

  /**
   A reply wrapped in plain "```" fences, with a body that has no backticks
   and does not start with "json" in any case, loses exactly the two fences:
   the body survives whole, and cleaning leaves the body without its outer
   white space.
   */
  lemma PlainFencedBody(body: string)
    requires '`' !in body
    requires !StartsWithJsonTag(body)
    ensures StripFences("```" + body + "```") == body
    ensures Clean("```" + body + "```") == Trim(body)
  {
    var t := body + "```";
    var s := "```" + t;
    assert s == "```" + body + "```";
    PlainOpener(body);
    DropPlainFence(s);
    assert s[3..] == t;
    NoTickPrefix(body, "```");
    DropPlainFence("```");
    assert "```"[3..] == "";
    assert body + "" == body;
  }

  /** A "```" that does not open "```json" is removed on its own, and removal goes on after it. */
  lemma DropPlainFence(s: string)
    requires FenceAt(s, 0) && !StartsWithJsonFence(s)
    ensures StripFences(s) == StripFences(s[3..])
  {
  }

  /** Plain fences around a body that does not start with "json" do not form a "```json" opener. */
  lemma PlainOpener(body: string)
    requires !StartsWithJsonTag(body)
    ensures FenceAt("```" + body + "```", 0)
    ensures !StartsWithJsonFence("```" + body + "```")
  {
    var s := "```" + body + "```";
    if |body| >= 4 {
      assert s[3] == body[0] && s[4] == body[1] && s[5] == body[2] && s[6] == body[3];
    } else if |s| >= 7 {
      // The closing fence starts inside the four letters a tag would need.
      assert s[3 + |body|] == '`';
    }
  }

  /**
   The cleaned text contains no "```" (in any case) and has no white space
   at either end.
   */
  lemma CleanResult(text: string)
    ensures !HasFence(Clean(text))
    ensures Trimmed(Clean(text))
  {
    var s := StripFences(text);
    StripFencesLeavesNoFence(text);
    var i, j :| 0 <= i <= j <= |s| && Clean(text) == s[i..j];
    SliceKeepsNoFence(s, i, j);
  }

  /** Text with no fences and no outer white space is returned unchanged. */
  lemma CleanIdentity(text: string)
    requires !HasFence(text) && Trimmed(text)
    ensures Clean(text) == text
  {
    StripFencesIdentity(text);
    var i, j :| 0 <= i <= j <= |text| && Clean(text) == text[i..j]
                && (forall k :: 0 <= k < i ==> IsWhitespace(text[k]))
                && (forall k :: j <= k < |text| ==> IsWhitespace(text[k]));
    if text != "" {
      assert !IsWhitespace(text[0]) && !IsWhitespace(text[|text| - 1]);
    }
    assert i == 0 && j == |text|;
    assert text[0..|text|] == text;
  }

  /** Cleaning twice is cleaning once. */
  lemma CleanIdempotent(text: string)
    ensures Clean(Clean(text)) == Clean(text)
  {
    CleanResult(text);
    CleanIdentity(Clean(text));
  }
}

=== FILE: handler.dfy ===
/**
 The `/analyze-task` request handler: validation, prompt, one call to the
 completion service, normalisation of its reply, and the mapping of every
 way this can end to a reply. The call itself is not modelled: its result
 is the `Gateway` value the handler is given, and `JSON.parse` is the
 `parse` parameter.
 */
module Handler {
  import opened Optional
  import opened Json
  import opened Validation
  import opened Prompt
  import opened Deduplication
  import opened Normalizer
  import opened Envelope

  /** What the catch block reads of an exception: `error.code` and `error.response?.status`. */
  datatype Thrown = Thrown(code: Option<string>, status: Option<int>)

  /** The code the HTTP client gives a request that ran out of time. */
  const TimeoutCode: string := "ECONNABORTED"

  /** A `TypeError` raised by the handler's own code: it has no code and no response. */
  const TypeError: Thrown := Thrown(None, None)

  /** One completion choice: `NoMessage` when `choices[i].message` is missing, else its content when that is text. */
  datatype Choice = NoMessage | Message(content: Option<string>)

  /**
   How the call to the completion service ended: a reply with its
   `data.choices` list (empty when the reply has none), or a thrown error
   (time-out, an HTTP error status, a network failure).
   */
  datatype Gateway = Completed(choices: seq<Choice>) | Failed(error: Thrown)

  /** The catch block: the time-out code wins over a 401 status; anything else is a generic failure. */
  function Caught(e: Thrown): (o: Outcome)
    ensures o == UpstreamTimeout || o == UpstreamAuth || o == InternalUnexpected
    ensures o == UpstreamTimeout <==> e.code == Some(TimeoutCode)
    ensures o == UpstreamAuth <==> e.code != Some(TimeoutCode) && e.status == Some(401)
  {
    if e.code == Some(TimeoutCode) then UpstreamTimeout
    else if e.status == Some(401) then UpstreamAuth
    else InternalUnexpected
  }

  /** Everything after the call: the empty-reply check, `cleanLLMJson` and the key check. */
  function AfterCall(title: string, description: Json, gateway: Gateway, parse: string -> Option<Json>): (o: Outcome)
    ensures !o.InvalidInput?
    ensures o.Analysed? ==>
              && o.title == title && o.description == description
              && gateway.Completed? && |gateway.choices| > 0 && gateway.choices[0].Message?
              && CleanLlmJson(gateway.choices[0].content, parse) == Some(o.analysis)
              && Usable(Some(o.analysis))
    ensures gateway.Failed? ==> o == Caught(gateway.error)
  {
    match gateway
    case Failed(e) => Caught(e)
    case Completed(choices) =>
      if |choices| == 0 then UpstreamEmpty
      else
        match choices[0]
        case NoMessage => Caught(TypeError)
        case Message(content) =>
          var analysis := CleanLlmJson(content, parse);
          if Usable(analysis) then Analysed(title, description, analysis.value) else UpstreamUnparsable
  }

  /** One request: the prompt sent to the completion service, if any, and the reply. */
  datatype Exchange = Exchange(sent: Option<string>, reply: Reply)

  /**
   The handler. A prompt that fails to render throws before the call, into
   the catch block. A prompt is sent only for valid input, and it is the
   rendering of the validated fields; a 400 reply means exactly that
   validation failed. A sent prompt's reply is decided by what happens
   after the call; a valid request whose prompt does not render gets the
   generic 500.
   */
  function Handle(input: TaskInput, gateway: Gateway, parse: string -> Option<Json>): (x: Exchange)
    ensures x.sent.Some? ==>
              Validate(input).Valid?
              && x.sent == BuildPrompt(Validate(input).title, Validate(input).description, Validate(input).comments)
    ensures x.reply.status == 400 <==> Validate(input).Invalid?
    ensures x.reply.status in {200, 400, 500, 502, 504}
    ensures x.sent.Some? ==>
              x.reply == Respond(AfterCall(Validate(input).title, Validate(input).description, gateway, parse))
    ensures Validate(input).Valid? && x.sent.None? ==> x.reply == Respond(InternalUnexpected)
  {
    match Validate(input)
    case Invalid(message) => Exchange(None, Respond(InvalidInput(message)))
    case Valid(title, description, comments) =>
      match BuildPrompt(title, description, comments)
      case None => Exchange(None, Respond(Caught(TypeError)))
      case Some(prompt) => Exchange(Some(prompt), Respond(AfterCall(title, description, gateway, parse)))
  }

  /**
   Validation runs first and in order: the first failing check decides a
   400 reply with its message, whatever the later fields hold, and nothing
   is sent to the completion service.
   */
  lemma ValidationFailsFirst(input: TaskInput, gateway: Gateway, parse: string -> Option<Json>)
    ensures var x := Handle(input, gateway, parse);
            !GoodTitle(input.title) ==> x.sent.None? && x.reply.status == 400 && MessageOf(x.reply) == Some(TitleRequired)
    ensures var x := Handle(input, gateway, parse);
            GoodTitle(input.title) && !GoodDescription(input.description)
            ==> x.sent.None? && x.reply.status == 400 && MessageOf(x.reply) == Some(DescriptionRequired)
    ensures var x := Handle(input, gateway, parse);
            GoodTitle(input.title) && GoodDescription(input.description) && !GoodComments(input.comments)
            ==> x.sent.None? && x.reply.status == 400 && MessageOf(x.reply) == Some(CommentsNotArray)
    ensures Handle(input, gateway, parse).reply.status == 400 <==> Validate(input).Invalid?
  {
  }

  /**
   The completion service is called only when all three checks pass and the
   prompt renders, and then with exactly that prompt. A request that never
   reaches it gets the same reply whatever the service and the parser would
   have done.
   */
  lemma CallOnlyAfterValidation(input: TaskInput, gateway: Gateway, parse: string -> Option<Json>,
                                other: Gateway, otherParse: string -> Option<Json>)
    ensures var x := Handle(input, gateway, parse);
            x.sent.Some? <==>
              Validate(input).Valid?
              && BuildPrompt(Validate(input).title, Validate(input).description, Validate(input).comments).Some?
    ensures var x := Handle(input, gateway, parse);
            x.sent.Some? ==> x.sent == BuildPrompt(Validate(input).title, Validate(input).description, Validate(input).comments)
    ensures Handle(input, gateway, parse).sent.None? ==> Handle(input, gateway, parse) == Handle(input, other, otherParse)
  {
  }

  /**
   The outcome table after a successful call attempt: an error thrown by the
   call maps to 504 for a time-out, 500 for a 401 and 500 otherwise; an
   empty choice list to 502; an unusable analysis to 502; a usable one to
   200 with the title and description echoed.
   */
  lemma GatewayOutcomes(title: string, description: Json, gateway: Gateway, parse: string -> Option<Json>)
    ensures var r := Respond(AfterCall(title, description, gateway, parse));
            gateway == Completed([]) ==> r.status == 502 && MessageOf(r) == Some(EmptyResponse)
    ensures var r := Respond(AfterCall(title, description, gateway, parse));
            gateway.Failed? && gateway.error.code == Some(TimeoutCode) ==> r.status == 504 && MessageOf(r) == Some(TimedOut)
    ensures var r := Respond(AfterCall(title, description, gateway, parse));
            gateway.Failed? && gateway.error.code != Some(TimeoutCode) && gateway.error.status == Some(401)
            ==> r.status == 500 && MessageOf(r) == Some(AuthFailed)
    ensures var r := Respond(AfterCall(title, description, gateway, parse));
            gateway.Failed? && gateway.error.code != Some(TimeoutCode) && gateway.error.status != Some(401)
            ==> r.status == 500 && MessageOf(r) == Some(GenericFailure)
    ensures var r := Respond(AfterCall(title, description, gateway, parse));
            gateway.Completed? && |gateway.choices| > 0 && gateway.choices[0].Message?
            ==> var analysis := CleanLlmJson(gateway.choices[0].content, parse);
                && (!Usable(analysis) ==> r.status == 502 && MessageOf(r) == Some(Unparsable))
                && (Usable(analysis) ==>
                      && r.status == 200 && r.body.JObject?
                      && Lookup(r.body.members, "success") == Some(JBool(true))
                      && Lookup(r.body.members, "title") == Some(JString(title))
                      && Lookup(r.body.members, "description") == Some(description)
                      && Lookup(r.body.members, "analysis") == analysis)
    ensures var r := Respond(AfterCall(title, description, gateway, parse));
            gateway.Completed? && |gateway.choices| > 0 && gateway.choices[0].NoMessage?
            ==> r.status == 500 && MessageOf(r) == Some(GenericFailure)
    ensures Respond(AfterCall(title, description, gateway, parse)).status in {200, 500, 502, 504}
  {
  }

  /**
   A 200 reply carries an analysis that is never an empty object, and in
   which every array property of a parsed object is free of duplicates.
   */
  lemma SuccessIsDeduplicated(title: string, description: Json, gateway: Gateway, parse: string -> Option<Json>)
    ensures var r := Respond(AfterCall(title, description, gateway, parse));
            r.status == 200 ==>
              && r.body.JObject? && Lookup(r.body.members, "analysis").Some?
              && var a := Lookup(r.body.members, "analysis").value;
                 && (a.JObject? ==> |a.members| > 0)
                 && (a.JObject? ==> forall i :: 0 <= i < |a.members| && a.members[i].value.JArray?
                                      ==> DuplicateFree(a.members[i].value.items))
  {
    var o := AfterCall(title, description, gateway, parse);
    if o.Analysed? {
      var content := gateway.choices[0].content;
      NormalizedArraysDuplicateFree(content, parse);
      assert Some(o.analysis) == CleanLlmJson(content, parse);
    }
  }

  /**
   Comments that are falsy but not `null` (such as `""`, `0` or `false`)
   pass validation, yet `comments?.map` then throws: the request fails with
   the generic 500 and the completion service is never called.
   */
  lemma FalsyCommentsFailAfterValidation(title: string, description: Json, comments: Json,
                                         gateway: Gateway, parse: string -> Option<Json>)
    requires title != "" && (description.JArray? || description.JObject?)
    requires !Truthy(comments) && !comments.JNull?
    ensures var x := Handle(TaskInput(Some(JString(title)), Some(description), Some(comments)), gateway, parse);
            Validate(TaskInput(Some(JString(title)), Some(description), Some(comments))).Valid?
            && x.sent.None? && x.reply.status == 500 && MessageOf(x.reply) == Some(GenericFailure)
  {
    CommentsTextNoComments(Some(comments));
  }

  /**
   An object with its own `toString` property cannot be converted to text:
   a task whose context is such an object passes validation, but building
   the prompt throws, so the completion service is never called and the
   reply is the generic 500.
   */
  lemma OwnToStringFailsBeforeCall(gateway: Gateway, parse: string -> Option<Json>)
    ensures var context := JObject([Member("toString", JNumber(1))]);
            var input := TaskInput(Some(JString("X")), Some(JObject([Member("context", context)])), None);
            var x := Handle(input, gateway, parse);
            && Validate(input).Valid?
            && x.sent.None? && x.reply.status == 500 && MessageOf(x.reply) == Some(GenericFailure)
  {
    var context := JObject([Member("toString", JNumber(1))]);
    var description := JObject([Member("context", context)]);
    assert Get(description, "context") == Some(context);
    assert ToStringThrows(context);
  }

  /**
   A valid task with a context and one comment, and a model reply that
   parses to an analysis listing "a" twice as completed work. The reply is a 200 whose analysis lists "a" once, with every other
   field passed through.
   */
  lemma HappyPathExample(raw: string, parse: string -> Option<Json>)
    requires parse(Fences.Clean(raw)) == Some(JObject(ExampleReply([JString("a"), JString("a")])))
    ensures var input := TaskInput(Some(JString("X")), Some(JObject([Member("context", JString("c"))])),
                                   Some(JArray([JString("hi")])));
            var x := Handle(input, Completed([Message(Some(raw))]), parse);
            && x.sent.Some? && x.reply.status == 200
            && Lookup(x.reply.body.members, "analysis") == Some(JObject(ExampleReply([JString("a")])))
  {
    var description := JObject([Member("context", JString("c"))]);
    var comments := Some(JArray([JString("hi")]));
    var input := TaskInput(Some(JString("X")), Some(description), comments);
    assert Validate(input) == Valid("X", description, comments);
    ExamplePromptRenders(description, comments);
    ExampleDeduplicated();
    var a := CleanLlmJson(Some(raw), parse);
    assert a == Some(JObject(ExampleReply([JString("a")])));
    assert Usable(a);
  }

  /** The example task renders: none of its fields has the wrong type. */
  lemma ExamplePromptRenders(description: Json, comments: Option<Json>)
    requires description == JObject([Member("context", JString("c"))])
    requires comments == Some(JArray([JString("hi")]))
    ensures BuildPrompt("X", description, comments).Some?
  {
    assert Get(description, "information").None?;
    assert Get(description, "taskPoints").None?;
    assert Get(description, "deliverables").None?;
    assert Get(description, "references").None?;
    assert !ToStringThrows(JString("c")) && !ToStringThrows(PickComment(JString("hi")));
  }

  /** The example analysis loses its repeated "a" and nothing else. */
  lemma ExampleDeduplicated()
    ensures DedupFields(JObject(ExampleReply([JString("a"), JString("a")])))
            == Some(JObject(ExampleReply([JString("a")])))
  {
    var twice := [JString("a"), JString("a")];
    assert Dedup(twice) == [JString("a")] by {
      assert twice[..1] == [JString("a")];
    }
    assert Dedup([JString("b")]) == [JString("b")];
    var ms := ExampleReply(twice);
    var expected := ExampleReply([JString("a")]);
    var r := DedupFields(JObject(ms)).value.members;
    assert r == expected by {
      forall i | 0 <= i < |r| ensures r[i] == expected[i] {
        assert r[i] == Member(ms[i].key, DedupValue(ms[i].value));
      }
    }
  }

  /** The model's analysis in `HappyPathExample`, with the given completed work. */
  function ExampleReply(completed: seq<Json>): seq<Member> {
    [Member("current_progress", JString("50%")),
     Member("work_completed", JArray(completed)),
     Member("work_pending", JArray([JString("b")])),
     Member("open_questions", JArray([])),
     Member("estimated_time_to_complete", JString("2d"))]
  }
}

=== FILE: json.dfy ===
/**
 JavaScript values as they come out of JSON parsing, and the few pieces of
 JavaScript semantics the request handler leans on: truthiness, `typeof`,
 property reads, `String(v)` and `Array.prototype.join`.
 */
module Json {
  import opened Optional

  /** A parsed JSON value. Numbers are limited to integers. */
  datatype Json =
    | JNull
    | JBool(b: bool)
    | JNumber(n: int)
    | JString(s: string)
    | JArray(items: seq<Json>)
    | JObject(members: seq<Member>)

  /** One `key: value` pair of an object, in source order. */
  datatype Member = Member(key: string, value: Json)

  /** JavaScript truthiness: `null`, `false`, `0` and `""` are falsy; arrays and objects never are. */
  predicate Truthy(v: Json) {
    match v
    case JNull => false
    case JBool(b) => b
    case JNumber(n) => n != 0
    case JString(s) => s != ""
    case JArray(_) => true
    case JObject(_) => true
  }

  /** Truthiness of a property read, where `undefined` is falsy. */
  predicate TruthyProp(v: Option<Json>) {
    v.Some? && Truthy(v.value)
  }

  /** `typeof v === "object"`: true of `null`, arrays and objects. */
  predicate TypeofObject(v: Json) {
    v.JNull? || v.JArray? || v.JObject?
  }

  /** The value of the last member named `key`, as `JSON.parse` keeps the last duplicate. */
  function Lookup(ms: seq<Member>, key: string): (r: Option<Json>)
    ensures r.None? <==> forall i :: 0 <= i < |ms| ==> ms[i].key != key
    ensures r.Some? ==> exists i :: 0 <= i < |ms| && ms[i] == Member(key, r.value)
    decreases |ms|
  {
    if |ms| == 0 then None
    else if ms[|ms| - 1].key == key then Some(ms[|ms| - 1].value)
    else Lookup(ms[..|ms| - 1], key)
  }

  /** Looking up a key after appending one member. */
  lemma LookupAppend(ms: seq<Member>, m: Member)
    ensures forall key :: Lookup(ms + [m], key) == if m.key == key then Some(m.value) else Lookup(ms, key)
  {
    assert (ms + [m])[..|ms|] == ms;
  }

  /**
   `v.key` on a value that is not `null`. Only objects have the own data
   properties the handler reads; arrays and primitives give `undefined`.
   */
  function Get(v: Json, key: string): Option<Json> {
    if v.JObject? then Lookup(v.members, key) else None
  }

  function DigitChar(d: nat): char
    requires d < 10
  {
    "0123456789"[d]
  }

  function NatToDecimal(n: nat): (r: string)
    ensures |r| > 0
    decreases n
  {
    if n < 10 then [DigitChar(n)] else NatToDecimal(n / 10) + [DigitChar(n % 10)]
  }

  /** `String(n)` for an integer-valued number. */
  function IntToDecimal(n: int): string {
    if n < 0 then "-" + NatToDecimal(-n) else NatToDecimal(n)
  }

  /**
   `Array.prototype.join`: the parts separated by `sep`. Written from the
   front so that `parts[0]` is the first text of the result.
   */
  function Join(parts: seq<string>, sep: string): string
    decreases |parts|
  {
    if |parts| == 0 then ""
    else if |parts| == 1 then parts[0]
    else parts[0] + sep + Join(parts[1..], sep)
  }

  /**
   True when `String(v)` throws a `TypeError`. An object that `JSON.parse`
   gave an own `toString` property (never a function) makes the conversion
   skip it, call the inherited `valueOf`, get the object itself back and
   give up. An array converts through `join`, so it throws exactly when one
   of its elements does.
   */
  predicate ToStringThrows(v: Json)
    decreases v
  {
    match v
    case JObject(ms) => Lookup(ms, "toString").Some?
    case JArray(items) => exists i :: 0 <= i < |items| && ToStringThrows(items[i])
    case _ => false
  }

  /** `String(v)`, as a template literal `${v}` renders it; `None` when the conversion throws. */
  function Str(v: Json): (r: Option<string>)
    ensures r.None? <==> ToStringThrows(v)
    ensures !v.JArray? && !v.JObject? ==> r.Some?
    decreases v, 1
  {
    match v
    case JNull => Some("null")
    case JBool(b) => Some(if b then "true" else "false")
    case JNumber(n) => Some(IntToDecimal(n))
    case JString(s) => Some(s)
    case JArray(items) => JoinValues(items, ",")
    case JObject(ms) => if Lookup(ms, "toString").Some? then None else Some("[object Object]")
  }

  /** How `join` renders one element: `null` becomes the empty text. */
  function ElemText(v: Json): (r: Option<string>)
    ensures r.None? <==> ToStringThrows(v)
    decreases v, 2
  {
    if v.JNull? then Some("") else Str(v)
  }

  /** The texts `join` puts between its separators, or `None` when converting one element throws. */
  function ElemTexts(items: seq<Json>): (r: Option<seq<string>>)
    ensures r.None? <==> exists i :: 0 <= i < |items| && ToStringThrows(items[i])
    ensures r.Some? ==> |r.value| == |items| && forall i :: 0 <= i < |items| ==> ElemText(items[i]) == Some(r.value[i])
    decreases items, 3
  {
    if |items| == 0 then Some([])
    else
      var head := ElemText(items[0]);
      var tail := ElemTexts(items[1..]);
      assert forall i :: 1 <= i < |items| ==> items[1..][i - 1] == items[i];
      if head.None? || tail.None? then None else Some([head.value] + tail.value)
  }

  /** `items.join(sep)` on an array of JSON values; `None` when an element cannot be converted to text. */
  function JoinValues(items: seq<Json>, sep: string): (r: Option<string>)
    ensures r.None? <==> exists i :: 0 <= i < |items| && ToStringThrows(items[i])
    decreases items, 4
  {
    var texts := ElemTexts(items);
    if texts.None? then None else Some(Join(texts.value, sep))
  }

  /**
   A join with a non-empty separator is empty exactly when there is nothing
   to join or a single part that is itself empty.
   */
  lemma JoinIsEmpty(parts: seq<string>, sep: string)
    requires sep != ""
    ensures Join(parts, sep) == "" <==> |parts| == 0 || (|parts| == 1 && parts[0] == "")
  {
    if |parts| >= 2 {
      assert |Join(parts, sep)| >= |sep|;
    }
  }

  /** Splits `s` at every occurrence of `sep`, the inverse of joining with `[sep]`. */
  function Split(s: string, sep: char): (parts: seq<string>)
    ensures |parts| > 0
    decreases |s|
  {
    if |s| == 0 then [""]
    else
      var rest := Split(s[1..], sep);
      if s[0] == sep then [""] + rest else [[s[0]] + rest[0]] + rest[1..]
  }

  /** Text without the separator splits into itself alone. */
  lemma {:induction false} SplitNoSeparator(s: string, sep: char)
    requires sep !in s
    ensures Split(s, sep) == [s]
    decreases |s|
  {
    if |s| > 0 {
      assert sep !in s[1..] by {
        forall k | 0 <= k < |s[1..]| ensures s[1..][k] != sep {
          assert s[1..][k] == s[k + 1];
        }
      }
      SplitNoSeparator(s[1..], sep);
      assert [s[0]] + s[1..] == s;
    }
  }

  /** A separator-free head followed by the separator splits off as the first part. */
  lemma {:induction false} SplitAfterHead(head: string, sep: char, rest: string)
    requires sep !in head
    ensures Split(head + [sep] + rest, sep) == [head] + Split(rest, sep)
    decreases |head|
  {
    var s := head + [sep] + rest;
    if |head| == 0 {
      assert s[1..] == rest;
    } else {
      assert sep !in head[1..] by {
        forall k | 0 <= k < |head[1..]| ensures head[1..][k] != sep {
          assert head[1..][k] == head[k + 1];
        }
      }
      assert s[1..] == head[1..] + [sep] + rest;
      SplitAfterHead(head[1..], sep, rest);
      assert [head[0]] + head[1..] == head;
    }
  }

  /** Joining separator-free parts with a one-character separator and splitting again gives the parts back. */
  lemma {:induction false} SplitJoin(parts: seq<string>, sep: char)
    requires |parts| > 0
    requires forall i :: 0 <= i < |parts| ==> sep !in parts[i]
    ensures Split(Join(parts, [sep]), sep) == parts
    decreases |parts|
  {
    if |parts| == 1 {
      SplitNoSeparator(parts[0], sep);
    } else {
      SplitJoin(parts[1..], sep);
      SplitAfterHead(parts[0], sep, Join(parts[1..], [sep]));
      assert [parts[0]] + parts[1..] == parts;
    }
  }
}

=== FILE: normalizer.dfy ===
/**
 `cleanLLMJson`: fence removal and trim, `JSON.parse`, then every
 array-valued property (as `Object.keys` lists them) deduplicated. Any
 exception inside it yields `null`, which is `None` here. `JSON.parse` is a
 parameter: its behaviour is not part of this model.
 */
module Normalizer {
  import opened Optional
  import opened Json
  import opened Fences
  import opened Deduplication

  /**
   The deduplication loop over `Object.keys(parsed)`. `Object.keys(null)`
   throws. An object's keys are its members; an array's keys are its indices,
   so array elements that are arrays get deduplicated; a string's keys are
   its indices too, but its characters are never arrays; numbers and
   booleans have no keys.
   */
  function DedupFields(parsed: Json): (r: Option<Json>)
    ensures r.None? <==> parsed.JNull?
    ensures parsed.JObject? ==> r.Some? && r.value.JObject? && |r.value.members| == |parsed.members|
                                && forall i :: 0 <= i < |parsed.members| ==> r.value.members[i].key == parsed.members[i].key
    ensures parsed.JArray? ==> r.Some? && r.value.JArray? && |r.value.items| == |parsed.items|
    ensures !parsed.JNull? && !parsed.JObject? && !parsed.JArray? ==> r == Some(parsed)
  {
    match parsed
    case JNull => None
    case JObject(ms) =>
      Some(JObject(seq(|ms|, i requires 0 <= i < |ms| => Member(ms[i].key, DedupValue(ms[i].value)))))
    case JArray(items) =>
      Some(JArray(seq(|items|, i requires 0 <= i < |items| => DedupValue(items[i]))))
    case _ => Some(parsed)
  }

  /**
   On a parsed object, deduplication keeps every key in place and in order,
   leaves every value that is not an array as it was, and replaces each
   array by its first occurrences, now free of duplicates and holding the
   same elements.
   */
  lemma DedupFieldsOnObject(ms: seq<Member>)
    ensures DedupFields(JObject(ms)).Some?
    ensures var r := DedupFields(JObject(ms)).value;
            && r.JObject? && |r.members| == |ms|
            && (forall i :: 0 <= i < |ms| ==> r.members[i].key == ms[i].key)
            && (forall i :: 0 <= i < |ms| && !ms[i].value.JArray? ==> r.members[i].value == ms[i].value)
            && (forall i :: 0 <= i < |ms| && ms[i].value.JArray? ==>
                  && r.members[i].value.JArray?
                  && r.members[i].value.items == FirstOccurrences(ms[i].value.items)
                  && DuplicateFree(r.members[i].value.items)
                  && (forall x :: x in r.members[i].value.items <==> x in ms[i].value.items))
  {
    forall i | 0 <= i < |ms| {
      DedupValueMeaning(ms[i].value);
    }
  }

  /** Deduplicating the fields of an already deduplicated value changes nothing. */
  lemma DedupFieldsIdempotent(parsed: Json)
    requires !parsed.JNull?
    ensures DedupFields(parsed).Some?
    ensures DedupFields(DedupFields(parsed).value) == DedupFields(parsed)
  {
    match parsed
    case JObject(ms) =>
      var r := DedupFields(parsed).value.members;
      forall i | 0 <= i < |ms| ensures DedupValue(r[i].value) == r[i].value {
        DedupValueMeaning(ms[i].value);
      }
      assert DedupFields(JObject(r)).value.members == r;
    case JArray(items) =>
      var r := DedupFields(parsed).value.items;
      forall i | 0 <= i < |items| ensures DedupValue(r[i]) == r[i] {
        DedupValueMeaning(items[i]);
      }
      assert DedupFields(JArray(r)).value.items == r;
    case _ =>
  }

  /**
   `cleanLLMJson(content)`. `content` is `None` when the reply's text is not
   a string, so that `text.replace` throws.
   */
  function CleanLlmJson(content: Option<string>, parse: string -> Option<Json>): (r: Option<Json>)
    ensures r.None? <==> content.None? || parse(Clean(content.value)).None? || parse(Clean(content.value)) == Some(JNull)
    ensures r.Some? ==> !r.value.JNull?
  {
    if content.None? then None
    else
      match parse(Clean(content.value))
      case None => None
      case Some(parsed) => DedupFields(parsed)
  }

  /** `Object.keys(v).length > 0`. */
  predicate HasKeys(v: Json) {
    match v
    case JObject(ms) => |ms| > 0
    case JArray(items) => |items| > 0
    case JString(s) => |s| > 0
    case _ => false
  }

  /** The handler's test `!(!analysis || Object.keys(analysis).length === 0)`. */
  predicate Usable(analysis: Option<Json>) {
    TruthyProp(analysis) && HasKeys(analysis.value)
  }

  /**
   An analysis is accepted exactly when it is a non-empty object, a
   non-empty array or a non-empty string; the handler does not ask for the
   five expected keys.
   */
  lemma UsableIff(analysis: Option<Json>)
    ensures Usable(analysis) <==>
              analysis.Some?
              && ((analysis.value.JObject? && |analysis.value.members| > 0)
                  || (analysis.value.JArray? && |analysis.value.items| > 0)
                  || (analysis.value.JString? && analysis.value.s != ""))
  {
  }

  /**
   What the normalizer gives back: nothing when the content is not text,
   when parsing the cleaned text fails or yields `null`; otherwise the parsed
   value with its array fields deduplicated. Parsing always sees text with
   no fences and no outer white space.
   */
  lemma CleanLlmJsonOutcome(content: Option<string>, parse: string -> Option<Json>)
    ensures CleanLlmJson(content, parse).None? <==>
              content.None? || parse(Clean(content.value)).None? || parse(Clean(content.value)) == Some(JNull)
    ensures content.Some? ==> !HasFence(Clean(content.value)) && Trimmed(Clean(content.value))
    ensures content.Some? && parse(Clean(content.value)).Some? && !parse(Clean(content.value)).value.JNull?
            ==> CleanLlmJson(content, parse) == DedupFields(parse(Clean(content.value)).value)
  {
    if content.Some? {
      CleanResult(content.value);
    }
  }

  /** When the normalizer yields an object, each of its array properties is free of duplicates. */
  lemma NormalizedArraysDuplicateFree(content: Option<string>, parse: string -> Option<Json>)
    ensures var a := CleanLlmJson(content, parse);
            a.Some? && a.value.JObject? ==>
              forall i :: 0 <= i < |a.value.members| && a.value.members[i].value.JArray?
                ==> DuplicateFree(a.value.members[i].value.items)
  {
    if content.Some? && parse(Clean(content.value)).Some? {
      var parsed := parse(Clean(content.value)).value;
      if parsed.JObject? {
        DedupFieldsOnObject(parsed.members);
      }
    }
  }
}

=== FILE: optional.dfy ===
/** A JavaScript property read that may come back `undefined`. */
module Optional {

  /** `None` stands for `undefined` (a missing property or a failed step), `Some` for a value. */
  datatype Option<+T> = None | Some(value: T)
}

=== FILE: prompt.dfy ===
/**
 The prompt the handler sends to the completion service: a fixed
 instruction block, the title, a five-line rendering of the description and
 the comments, one per line. Rendering can throw a `TypeError` in
 JavaScript (calling `join` or `map` on a value that has no such method,
 reading `comment` of `null`, or converting to text an object that has its
 own `toString` property); that is the `None` result here.
 */
module Prompt {
  import opened Optional
  import opened Json

  const NotApplicable: string := "N/A"
  const NoComments: string := "No comments"

  const Instructions: string :=
    "\nYou are a project management assistant.\nReturn ONLY valid JSON with these keys:\n"
    + "- current_progress\n- work_completed (array)\n- work_pending (array)\n"
    + "- open_questions (array)\n- estimated_time_to_complete (string)\n\nTask Title:\n"

  /** The five description properties the prompt reads; any other property is ignored. */
  const DescriptionKeys: seq<string> := ["context", "information", "taskPoints", "deliverables", "references"]

  /** True when `${description.context || "N/A"}` throws: the context is truthy and cannot be converted to text. */
  predicate ContextThrows(context: Option<Json>) {
    TruthyProp(context) && ToStringThrows(context.value)
  }

  /** `${description.context || "N/A"}`; `None` when converting the context to text throws. */
  function ContextText(context: Option<Json>): (r: Option<string>)
    ensures r.None? <==> ContextThrows(context)
  {
    if TruthyProp(context) then Str(context.value) else Some(NotApplicable)
  }

  /** True when `field?.join(", ")` throws: the value has no `join`, or one of its elements cannot be converted to text. */
  predicate JoinThrows(field: Option<Json>) {
    field.Some? && !field.value.JNull? && (!field.value.JArray? || ToStringThrows(field.value))
  }

  /** `field?.join(", ") || "N/A"`; `None` when the join throws. */
  function ListText(field: Option<Json>): (r: Option<string>)
    ensures r.None? <==> JoinThrows(field)
    ensures r.Some? ==> r.value != ""
  {
    match field
    case None => Some(NotApplicable)
    case Some(JNull) => Some(NotApplicable)
    case Some(JArray(items)) =>
      var joined := JoinValues(items, ", ");
      if joined.None? then None
      else Some(if joined.value == "" then NotApplicable else joined.value)
    case Some(_) => None
  }

  /** True when rendering the description block throws on one of the five properties it reads. */
  predicate DescriptionThrows(description: Json) {
    || ContextThrows(Get(description, "context"))
    || JoinThrows(Get(description, "information"))
    || JoinThrows(Get(description, "taskPoints"))
    || JoinThrows(Get(description, "deliverables"))
    || JoinThrows(Get(description, "references"))
  }

  /** The description block: one labelled line per property, between blank lines. */
  function DescriptionText(description: Json): (r: Option<string>)
    ensures r.None? <==> DescriptionThrows(description)
  {
    var context := ContextText(Get(description, "context"));
    var information := ListText(Get(description, "information"));
    var taskPoints := ListText(Get(description, "taskPoints"));
    var deliverables := ListText(Get(description, "deliverables"));
    var references := ListText(Get(description, "references"));
    if context.None? || information.None? || taskPoints.None? || deliverables.None? || references.None? then None
    else
      Some("\nContext: " + context.value
           + "\nInformation: " + information.value
           + "\nTask Points: " + taskPoints.value
           + "\nDeliverables: " + deliverables.value
           + "\nReferences: " + references.value + "\n")
  }

  /** `c.comment || c` for a comment entry that is not `null`. */
  function PickComment(c: Json): Json
    requires !c.JNull?
  {
    var text := Get(c, "comment");
    if TruthyProp(text) then text.value else c
  }

  /** `comments.map(c => c.comment || c)` on an array without `null` entries. */
  function Picked(items: seq<Json>): (picked: seq<Json>)
    requires JNull !in items
    ensures |picked| == |items|
    ensures forall i :: 0 <= i < |items| ==> picked[i] == PickComment(items[i])
  {
    seq(|items|, i requires 0 <= i < |items| => PickComment(items[i]))
  }

  /** The line one comment entry contributes to the comments section; `None` when it cannot be converted to text. */
  function CommentLine(c: Json): Option<string>
    requires !c.JNull?
  {
    ElemText(PickComment(c))
  }

  /** The lines of an array of comments without `null` entries; `None` when one of them cannot be converted to text. */
  function CommentLines(items: seq<Json>): (lines: Option<seq<string>>)
    requires JNull !in items
    ensures lines.None? <==> exists i :: 0 <= i < |items| && CommentLine(items[i]).None?
    ensures lines.Some? ==> |lines.value| == |items|
                            && forall i :: 0 <= i < |items| ==> CommentLine(items[i]) == Some(lines.value[i])
  {
    ElemTexts(Picked(items))
  }

  /**
   True when rendering the comments throws: `map` is missing, an entry is
   `null` (so reading its `comment` fails), or `join` cannot convert a picked
   value to text.
   */
  predicate CommentsThrow(comments: Option<Json>) {
    comments.Some? && !comments.value.JNull?
    && (|| !comments.value.JArray?
        || JNull in comments.value.items
        || exists i :: 0 <= i < |comments.value.items| && ToStringThrows(PickComment(comments.value.items[i])))
  }

  /** `comments?.map(c => c.comment || c).join("\n") || "No comments"`; `None` when rendering throws. */
  function CommentsText(comments: Option<Json>): (r: Option<string>)
    ensures r.None? <==> CommentsThrow(comments)
    ensures r.Some? ==> r.value != ""
  {
    match comments
    case None => Some(NoComments)
    case Some(JNull) => Some(NoComments)
    case Some(JArray(items)) =>
      if JNull in items then None
      else
        var joined := JoinValues(Picked(items), "\n");
        if joined.None? then None
        else Some(if joined.value == "" then NoComments else joined.value)
    case Some(_) => None
  }

  /**
   The whole prompt, or `None` when rendering throws (before the completion
   service is called). It fails exactly when the context cannot be converted
   to text, one of the four list properties cannot be joined, or the
   comments cannot be mapped and joined. A rendered prompt opens with the
   fixed instructions followed by the title.
   */
  function BuildPrompt(title: string, description: Json, comments: Option<Json>): (r: Option<string>)
    ensures r.None? <==>
              || ContextThrows(Get(description, "context"))
              || JoinThrows(Get(description, "information"))
              || JoinThrows(Get(description, "taskPoints"))
              || JoinThrows(Get(description, "deliverables"))
              || JoinThrows(Get(description, "references"))
              || CommentsThrow(comments)
    ensures r.Some? ==> |Instructions| + |title| <= |r.value|
                        && r.value[..|Instructions|] == Instructions
                        && r.value[|Instructions|..|Instructions| + |title|] == title
  {
    var descriptionText := DescriptionText(description);
    var commentsText := CommentsText(comments);
    if descriptionText.None? || commentsText.None? then None
    else
      var rest := "\n\nTask Description:\n" + descriptionText.value + "\n\nComments:\n" + commentsText.value + "\n";
      assert Instructions + title + rest == Instructions + (title + rest);
      Some(Instructions + title + rest)
  }

  /**
   The context line reads "N/A" exactly when the context is falsy or
   converts to the literal text "N/A". Unlike a list property it can be
   empty: a truthy context that converts to empty text, such as `[]`, leaves
   "Context: " with nothing after it.
   */
  lemma ContextTextNotApplicable(context: Option<Json>)
    ensures ContextText(context) == Some(NotApplicable) <==>
              !TruthyProp(context) || Str(context.value) == Some(NotApplicable)
    ensures ContextText(context) == Some("") <==> TruthyProp(context) && Str(context.value) == Some("")
    ensures ContextText(Some(JArray([]))) == Some("")
  {
    assert ElemTexts([]) == Some([]);
  }

  /**
   A list property renders as "N/A" exactly when it is absent or `null`, or
   its array is empty, or holds one element that renders as empty text (or
   its join literally reads "N/A"). Rendering fails exactly for a value
   that has no `join` and for an array with an element that cannot be
   converted to text.
   */
  lemma ListTextNotApplicable(field: Option<Json>)
    ensures ListText(field).None? <==> JoinThrows(field)
    ensures ListText(field) == Some(NotApplicable) <==>
              || field.None?
              || field.value.JNull?
              || (field.value.JArray? && !ToStringThrows(field.value)
                  && (|| |field.value.items| == 0
                      || (|field.value.items| == 1 && ElemText(field.value.items[0]) == Some(""))
                      || JoinValues(field.value.items, ", ") == Some(NotApplicable)))
    ensures ListText(field).Some? ==> ListText(field).value != ""
  {
    if field.Some? && field.value.JArray? && !ToStringThrows(field.value) {
      var texts := ElemTexts(field.value.items).value;
      JoinIsEmpty(texts, ", ");
    }
  }

  /**
   The comments section is "No comments" exactly when comments are absent
   or `null`, or the array is empty, or holds one entry whose line is empty
   (or whose lines join to the literal "No comments"). It fails exactly
   when `map` is missing, an entry is `null`, or a picked value cannot be
   converted to text.
   */
  lemma CommentsTextNoComments(comments: Option<Json>)
    ensures CommentsText(comments).None? <==> CommentsThrow(comments)
    ensures CommentsText(comments) == Some(NoComments) <==>
              || comments.None?
              || comments.value.JNull?
              || (comments.value.JArray? && JNull !in comments.value.items && !CommentsThrow(comments)
                  && (|| |comments.value.items| == 0
                      || (|comments.value.items| == 1 && CommentLine(comments.value.items[0]) == Some(""))
                      || JoinValues(Picked(comments.value.items), "\n") == Some(NoComments)))
    ensures CommentsText(comments).Some? ==> CommentsText(comments).value != ""
  {
    if comments.Some? && comments.value.JArray? && JNull !in comments.value.items && !CommentsThrow(comments) {
      var lines := CommentLines(comments.value.items).value;
      JoinIsEmpty(lines, "\n");
    }
  }

  /**
   When every comment line renders and none holds a line break, the
   comments section splits at its line breaks back into the lines the
   entries contributed, one per entry, in order (unless it was replaced by
   "No comments").
   */
  lemma {:induction false} CommentsSectionLines(items: seq<Json>)
    requires |items| > 0
    requires JNull !in items
    requires forall i :: 0 <= i < |items| ==> CommentLine(items[i]).Some? && '\n' !in CommentLine(items[i]).value
    ensures CommentsText(Some(JArray(items))).Some?
    ensures var section := CommentsText(Some(JArray(items))).value;
            || section == NoComments
            || (&& |Split(section, '\n')| == |items|
                && forall i :: 0 <= i < |items| ==> CommentLine(items[i]) == Some(Split(section, '\n')[i]))
  {
    var lines := CommentLines(items).value;
    SplitJoin(lines, '\n');
  }

  /**
   The prompt depends on the description only through its five known
   properties: descriptions that agree on those give the same prompt, so
   extra properties (and the difference between an array and an object
   lacking them) never reach the model.
   */
  lemma PromptReadsOnlyKnownKeys(title: string, d1: Json, d2: Json, comments: Option<Json>)
    requires forall k :: k in DescriptionKeys ==> Get(d1, k) == Get(d2, k)
    ensures BuildPrompt(title, d1, comments) == BuildPrompt(title, d2, comments)
  {
    assert DescriptionKeys[0] == "context" && DescriptionKeys[1] == "information";
    assert DescriptionKeys[2] == "taskPoints" && DescriptionKeys[3] == "deliverables";
    assert DescriptionKeys[4] == "references";
  }
}

=== FILE: validation.dfy ===
/**
 The three input checks of the `/analyze-task` handler. They run in a fixed
 order and the first one that fails decides the 400 message.
 */
module Validation {
  import opened Optional
  import opened Json

  /** The request body's three properties; `None` is a property the body does not have. */
  datatype TaskInput = TaskInput(title: Option<Json>, description: Option<Json>, comments: Option<Json>)

  const TitleRequired: string := "Task title is required."
  const DescriptionRequired: string := "Task description object is required."
  const CommentsNotArray: string := "Comments must be an array."

  /** What the checks leave for the rest of the handler: the fields as they passed, or the failure message. */
  datatype Checked =
    | Valid(title: string, description: Json, comments: Option<Json>)
    | Invalid(message: string)

  /** A title the handler accepts: a string that is not empty. */
  predicate GoodTitle(t: Option<Json>) {
    t.Some? && t.value.JString? && t.value.s != ""
  }

  /** A description the handler accepts: an array or an object (not `null`). */
  predicate GoodDescription(d: Option<Json>) {
    d.Some? && (d.value.JArray? || d.value.JObject?)
  }

  /** Comments the handler accepts: absent, any falsy value, or an array. */
  predicate GoodComments(c: Option<Json>) {
    c.None? || !Truthy(c.value) || c.value.JArray?
  }

  /**
   The three checks with JavaScript's truthiness and `typeof`, in source
   order. The contract restates each check in plain structural terms: the
   first failing field decides the message, whatever the later fields hold.
   */
  function Validate(input: TaskInput): (r: Checked)
    ensures r == Invalid(TitleRequired) <==> !GoodTitle(input.title)
    ensures r == Invalid(DescriptionRequired) <==> GoodTitle(input.title) && !GoodDescription(input.description)
    ensures (r == Invalid(CommentsNotArray))
            <==> GoodTitle(input.title) && GoodDescription(input.description) && !GoodComments(input.comments)
    ensures r.Invalid? ==> r.message in {TitleRequired, DescriptionRequired, CommentsNotArray}
    ensures r.Valid? <==>
              GoodTitle(input.title) && GoodDescription(input.description) && GoodComments(input.comments)
    ensures r.Valid? ==> input.title == Some(JString(r.title)) && input.description == Some(r.description)
                         && r.comments == input.comments
  {
    if !TruthyProp(input.title) || !input.title.value.JString? then
      Invalid(TitleRequired)
    else if !TruthyProp(input.description) || !TypeofObject(input.description.value) then
      Invalid(DescriptionRequired)
    else if TruthyProp(input.comments) && !input.comments.value.JArray? then
      Invalid(CommentsNotArray)
    else
      Valid(input.title.value.s, input.description.value, input.comments)
  }
}
